=== FILE: README.md ===
# go-service-boilerplate core, modelled in Dafny

This project models the data-access and service core of a Go CRUD backend. The backend
stores one resource, a `Model` (id, name, email, creation and update times), in the MongoDB
collection `models`. The model covers four Go files.

- **Storage-error normaliser** `ErrorWrapper` (`utils.dfy`, module `Utils`). Duplicate-key
  write errors become the 409 error "Model Already Exists". The driver's "no documents"
  error becomes the 200 marker "No Operation Executed". Any other error passes through.
  The grouping of the duplicate-key condition follows Go's precedence: the " E11000 "
  message guard applies to code 16460 only.
- **Model checks** (`models.dfy`, module `Models`). `ValidateStruct` checks only the
  `required,email` tags of the Email field. `IsNil` is the zero-value test.
- **Datastore** (`datastore.dfy`, module `Datastore`). It holds the `Query` and `Pagination`
  values and the skip arithmetic `(page - 1) * limit` in Go's 64-bit `int`. The class
  `Datastore` is the MongoDB implementation. The driver is known only by its replies,
  which are functions of the requests sent so far, and every request is recorded. The class
  `Repository` is the interface as the service layer sees it. It records each call and
  answers through reply functions, so it fits any implementation, a test double included,
  that answers each list or insert call with either a result or an error.
- **Service layer** (`services.dfy`, module `Services`). It covers `Get`, `GetById`,
  `Create`, `Update` and `Delete`. Each method's postcondition states which Repository call
  is made, if any, and with which Query. It states which errors go through `ErrorWrapper`
  and which are returned raw, and the exact status/message pair of every outcome.
- **Library pieces the core relies on.** `strconv.Atoi` is in `strconv.dfy`, with
  `strconv.Itoa` as its proved inverse. `primitive.ObjectIDFromHex` and `ObjectID.Hex` are
  in `primitive.dfy`, also with a proved round trip. Go's error values and their
  `Error()` texts are in `errors.dfy`.

Things the model makes explicit about the code as written:

- `Paginate` decodes every document but appends none of them. On success it always returns
  an empty list. `Get` returns Paginate's list as it is, so when this datastore is the
  repository, a successful `Get` carries an empty page. The model proves the two halves
  separately, because the service sees the repository only through its interface.
- `Find` appends one Model per cursor step even when decoding fails. A bad document gives a
  zero or partial Model, never a shorter result: a document that fails to decode is kept,
  not dropped.
- `Get` accepts any integer page and limit ("0", "-2" and "+7" included). The code does not
  check that either is positive. With page 0 and a positive limit the driver is asked for a
  negative skip.
- `Get` and `GetById` return repository errors raw. Only `Create`, `Update` and `Delete`
  pass them through `ErrorWrapper`, once each.
- The validator's `Value` field is copied from the tag parameter, so it is "" for both
  `required` and `email`. A missing Name yields no error at all. The controller test at
  internal/v1/controllers/controllers_test.go:83-95 expects a Name error; the model follows
  models.go.
- `Get` sorts on `createdAt`, while documents store the field as `created_at`. Sort
  semantics are not modelled, so this is only recorded here.

Representation choices:

- Go's nil error is `None` of an `Option<Error>`.
- `Get` and `Create` return `(ServiceResponse, Option<Error>)`, with the empty response
  beside an error. `GetById`, `Update` and `Delete` return `(Option<ServiceResponse>,
  Option<Error>)`, like Go's pointer results.
- The caller's `*models.Model`, which `Create` and `Update` stamp in place, is the class
  `ModelRef`.
- `time.Now().UTC()` is the parameter `now`. Times are integers, and 0 is Go's zero
  `time.Time`.
- The validator's e-mail rule is the parameter `isEmail`. The JSON marshal/unmarshal inside
  `mapPayload` is the fallible function `jsonRemap` that the service holds.

## Model

| member | source | states |
|---|---|---|
| Utils.HasDuplicateKey | internal/utils/utils.go:23-27 | the in-order scan over the write errors finds a match exactly when some entry is a duplicate key |
| Utils.ErrorWrapper | internal/utils/utils.go:21-33 | a WriteException with any duplicate-key entry gives Conflict 409 "Model Already Exists", before the text is looked at; otherwise text exactly "mongo: no documents in result" gives 200 "No Operation Executed"; otherwise the error is returned unchanged |
| Utils.ErrorWrapperIdempotent | internal/utils/utils.go:21-33 | normalising an already-normalised error changes nothing |
| Utils.UnguardedCodesConflict | internal/utils/utils.go:22-25 | one entry with code 11000, 11001 or 12582 anywhere in the list gives Conflict, whatever its message and the exception's text |
| Utils.GuardedCodeNeedsMarker | internal/utils/utils.go:24 | a lone 16460 entry gives Conflict if and only if its message contains " E11000 " |
| Utils.NoDocumentsIsNoOperation | internal/utils/utils.go:29-31 | the driver's no-documents error becomes 200 "No Operation Executed" |
| Utils.NoDocumentsNeedsExactText | internal/utils/utils.go:29-31 | the sentinel is matched by equality: the sentinel text followed by anything more passes through unchanged |
| Models.FieldErrors | internal/v1/models/models.go:28 | the validator reports at most one error, always for Model.Email with an empty parameter: "required" when Email is empty, "email" when it is non-empty but not an address, and none exactly when it is a valid address |
| Models.ToValidationErrors | internal/v1/models/models.go:40-46 | one ValidationError per validator error, in order, with FailedField from the namespace, Tag from the tag, and Value from the tag parameter |
| Models.ValidateStruct | internal/v1/models/models.go:35-48 | empty Email gives exactly [{Model.Email, required, ""}]; a non-empty invalid Email gives exactly [{Model.Email, email, ""}]; a valid Email gives no errors |
| Models.ValidationSeesOnlyEmail | internal/v1/models/models.go:25-31 | two models with the same Email validate alike; Name and the other fields carry no constraint |
| Models.IsNil | internal/v1/models/models.go:51-59 | true exactly when all five fields hold their zero values |
| Models.ValidModelIsNotNil | internal/v1/models/models.go:35-59 | a model that passes validation is never the zero model |
| Strconv.Atoi | internal/v1/services/services.go:73-85 | succeeds exactly on an optional sign followed by decimal digits whose value fits in 64 bits, and then returns that value; every error is a NumError of "Atoi" that carries the whole input, a range error when the input is well formed or its leading digit run exceeds 64 unsigned bits, and a syntax error otherwise |
| Strconv.AtoiItoa | internal/v1/services/services.go:73-85 | every 64-bit integer written in decimal parses back to itself |
| Strconv.AtoiRangeError | internal/v1/services/services.go:73-76 | every well-formed decimal outside the 64-bit range, signed, zero-padded or not, is rejected with a range error, not a syntax error |
| Strconv.AtoiSyntaxError | internal/v1/services/services.go:73-76 | a malformed input whose leading digit run fits in 64 unsigned bits is rejected with a syntax error |
| Strconv.AtoiCanonicalRangeError | internal/v1/services/services.go:73-76 | the shortest decimal spelling of any number above the 64-bit range is rejected with a range error |
| Errors.ErrorText | internal/utils/utils.go:29 | a parse error (strconv, invalid hex, invalid byte) never reads as the no-documents sentinel; strconv errors start "strconv."; an invalid-byte error is "encoding/hex: invalid byte: " followed by the `%#U` form of the byte; driver errors, write exceptions and fiber errors give the text they carry |
| Errors.QuotedCodePoint | internal/v1/services/services.go:109-112 | Go's `%#U` form of any character: "U+", upper-case hex digits whose value is the code point, exactly four below U+10000 and without leading zeros above it, then " 'c'" exactly when the character is printable ASCII |
| Errors.InvalidByteText | internal/v1/services/services.go:109-112 | an invalid 'm' in an id reads "encoding/hex: invalid byte: U+006D 'm'", Go's `%#U` form |
| Primitive.ObjectIdFromHex | internal/v1/services/services.go:109-112 | succeeds exactly on 24 hexadecimal digits, and each byte is decoded from its two digits; any other length gives ErrInvalidHex; otherwise the error names the first non-hex character |
| Primitive.HexRoundTrip | internal/v1/services/services.go:109-119 | every identifier written in hex parses back to the same 12 bytes |
| Datastore.Skip | internal/datastore/datastore.go:155 | for every page and limit, the skip sent to the driver is (page - 1) * limit reduced to 64-bit two's complement, although Go wraps page - 1 before multiplying |
| Datastore.SkipExact | internal/datastore/datastore.go:155 | without 64-bit overflow the skip is (page - 1) * limit, and 0 for page 1 |
| Datastore.SkipNegativeBeforeFirstPage | internal/datastore/datastore.go:155 | a page of 0 or less with a positive limit gives a negative skip |
| Datastore.Datastore.EnsureIndexes | internal/datastore/datastore.go:85-100 | sends one CreateIndexes request to the collection with a 5-second limit, holding exactly one unique, ascending (1) single-key index per field, in input order; returns the driver's error as the fatal one |
| Datastore.Datastore.Find | internal/datastore/datastore.go:103-121 | sends one find with projection Select, filter Where and collection From; on a driver error returns no result and that error; otherwise returns one Model per cursor step, in order, decode errors ignored |
| Datastore.Datastore.Insert | internal/datastore/datastore.go:124-130 | sends InsertOne of the document into From and returns the driver's result or its error |
| Datastore.Datastore.Update | internal/datastore/datastore.go:133-139 | sends FindOneAndUpdate with filter Where and the given update, and returns the single result paired with that result's own error |
| Datastore.Datastore.Delete | internal/datastore/datastore.go:142-148 | sends FindOneAndDelete with filter Where, and returns the single result paired with that result's own error |
| Datastore.Datastore.Paginate | internal/datastore/datastore.go:151-168 | sends one find with filter Where, sort from the pagination, limit = Limit and skip = (Page - 1) * Limit, and no projection; on a driver error returns no result and that error; otherwise always an empty list |
| Datastore.Repository.Find | internal/datastore/datastore.go:20 | records the call and gives the implementation's reply for it |
| Datastore.Repository.Insert | internal/datastore/datastore.go:21 | records the call and gives the implementation's reply for it |
| Datastore.Repository.Update | internal/datastore/datastore.go:22 | records the call and gives the implementation's error for it |
| Datastore.Repository.Delete | internal/datastore/datastore.go:23 | records the call and gives the implementation's error for it |
| Datastore.Repository.Paginate | internal/datastore/datastore.go:24 | records the call and gives the implementation's reply for it |
| Services.GetPagination | internal/v1/services/services.go:70-92 | a page parse error is returned first; then, for a non-empty limit, the limit's parse error; otherwise the pagination holds the parsed page, the parsed limit or 30 when the limit is empty, and sort {createdAt: 1} |
| Services.GetPaginationDefault | internal/v1/services/services.go:79-85 | any integer page with no limit gives limit 30 |
| Services.GetPaginationAcceptsIntegers | internal/v1/services/services.go:73-92 | any integer page and limit written in decimal are passed through as they are |
| Services.GetPaginationNoPositivityCheck | internal/v1/services/services.go:73-92 | page "0" and limit "-2" are accepted unchanged |
| Services.Service.constructor | internal/v1/services/services.go:41-43 | the service holds the given repository |
| Services.Service.MapPayload | internal/v1/services/services.go:49-62 | a successful remap is returned as it is; a failing one becomes a 500 error carrying the JSON error's text |
| Services.Service.Get | internal/v1/services/services.go:68-106 | on a parameter error returns that error with the empty response and makes no call; otherwise makes exactly one Paginate on {From: models} with the parsed pagination; a Paginate error is returned raw; success is 200 "Get Models Successful" with the list |
| Services.Service.GetById | internal/v1/services/services.go:108-135 | a malformed id returns its error with no call; otherwise makes exactly one Find selecting {name: 1} where {_id: id} from models; a Find error is returned raw; no match is 404 "Model Not Found"; otherwise 200 "Get Model by ID Successful" with the first match |
| Services.Service.Create | internal/v1/services/services.go:137-166 | sets CreatedAt to now in the caller's model and leaves the rest unchanged, then makes exactly one Insert of it into models; an Insert error goes through ErrorWrapper once; a remap failure is a 500 with the JSON error's text; success is 201 "Created Model Successfully" with the remapped payload |
| Services.Service.Update | internal/v1/services/services.go:168-194 | a malformed id returns its error with no call and leaves the model unchanged; otherwise sets UpdatedAt to now and makes exactly one Update where {_id: id} with {"$set": model}; an error goes through ErrorWrapper once; success is 200 "Update Successful" with no data |
| Services.Service.Delete | internal/v1/services/services.go:196-219 | a malformed id returns its error with no call; otherwise makes exactly one Delete where {_id: id}; an error goes through ErrorWrapper once; success is 200 "Delete Successful" with no data |

## Left out

- Connection lifecycle (`NewDatastore`, `Close`), the configuration and `Aggregate`'s raw cursor are driver calls with no logic of their own. MongoDB's query semantics are left out too: inserts, updates, deletes, sorting and unique-index enforcement are represented only by the driver's replies.
- Every `context.WithTimeout` deadline (5s, 15s, 30s) and the concurrency of pooled connections: timing and concurrency are not modelled. A timeout is just one more error reply.
- `log.Fatal` in `EnsureIndexes` ends the process. The model returns the fatal error instead. Logging calls are omitted.
- The JSON round trip inside `mapPayload` and the validator's e-mail rule belong to libraries. They are the parameters `jsonRemap` and `isEmail`.
- The HTTP controllers, router and `main` are not part of this model. The controller guards ("Page is required" and the `IsNil` check before `Update`) are not made preconditions, because the service methods handle those inputs themselves.
- Datastore.Repository.Find: the interface returns a `(result, error)` pair. The model's replies are result-or-error, as the Datastore's own Find and Paginate are proved to return. A test double answering both or neither is not covered.
- Datastore.Datastore.Insert: the driver's insert reply is taken to be a result or an error, never both.
- Utils.ErrorWrapper: a WriteException's `Error()` text is a free field rather than the driver's formatting of its write errors. This makes the model more general than the driver.
- Strconv.Atoi: strings are read one character per byte. This is exact for ASCII; multi-byte characters are not modelled. `strconv.Quote` escaping in the error text is not modelled either.
- Primitive.ObjectIdFromHex: the length check counts characters, not UTF-8 bytes. For non-ASCII input the error kind can differ from the driver's.
- Primitive.ObjectIdFromHex: the driver is taken to check for 24 characters before decoding, as current driver versions do. A driver that decodes first and checks for 12 bytes afterwards returns, for a short id such as "mockid", the invalid-byte error for its first non-hex character ('m') instead of ErrInvalidHex, and for an odd-length all-hex id `hex.ErrLength`, which `Errors.Error` does not represent.
- Errors.QuotedCodePoint: only printable ASCII is quoted after the code point; Go's `%#U` also quotes printable non-ASCII characters, which needs Unicode's printability tables.
- Errors.ErrorText: for the invalid-byte text, only printable ASCII is quoted after the code point; Go also quotes printable non-ASCII characters.
- Go's `int` is taken to be 64 bits wide. Go's `time.Time` is reduced to an instant. Its location is dropped, which agrees with `UTC()`, and its monotonic reading is dropped too.

=== FILE: datastore.dfy ===
/**
  The data-access layer of internal/datastore: the Query and Pagination value objects, the
  MongoDB-backed `datastore` (its driver is known only by the replies it gives), and the
  `Repository` interface through which the service layer reaches storage.
 */
module Datastore {
  import opened Wrappers
  import opened Errors
  import opened Models
  import opened Primitive
  import opened Strconv

  /** The BSON values the core puts into documents. */
  datatype Value = IntVal(i: int) | ObjectIdVal(oid: ObjectId) | ModelVal(model: Model)

  /** `bson.M`; a nil `bson.M` is the empty map. */
  type Doc = map<string, Value>

  /** `datastore.Query`: projection, filter and collection. */
  datatype Query = Query(select: Doc, where: Doc, from: string)

  /** `datastore.Pagination`: page, page size and sort specification. */
  datatype Pagination = Pagination(page: Int64, limit: Int64, sort: Doc)

  /**
    The offset Paginate asks the driver to skip: `(page - 1) * limit` in Go's 64-bit `int`,
    where `page - 1` wraps before the product does. For every page and limit this is the
    product reduced to 64-bit two's complement.
   */
  function Skip(p: Pagination): (skip: Int64)
    ensures skip == Wrap64((p.page - 1) * p.limit)
  {
    WrapThenMultiply(p.page - 1, p.limit);
    Wrap64(Wrap64(p.page - 1) * p.limit)
  }

  /** Without overflow the offset is the plain product; the first page starts at 0. */
  lemma SkipExact(p: Pagination)
    requires MinInt64 < p.page
    requires MinInt64 <= (p.page - 1) * p.limit <= MaxInt64
    ensures Skip(p) == (p.page - 1) * p.limit
    ensures p.page == 1 ==> Skip(p) == 0
  {
  }

  /** Nothing checks the page: page 0 or below with a positive limit gives a negative offset. */
  lemma SkipNegativeBeforeFirstPage(p: Pagination)
    requires MinInt64 < p.page <= 0 && 1 <= p.limit
    requires MinInt64 <= (p.page - 1) * p.limit
    ensures Skip(p) < 0
  {
    SkipExact(p);
    var a, b := p.page - 1, p.limit - 1;
    assert a < 0 && b >= 0;
    assert a * b <= 0;
    assert a * (b + 1) == a * b + a;
  }

  /** The options of a driver find: projection, sort, limit and skip, each possibly unset. */
  datatype FindOptions =
    FindOptions(projection: Option<Doc>, sort: Option<Doc>, limit: Option<Int64>, skip: Option<Int64>)

  /** `mongo.IndexModel`: the keys with their directions, and whether the index is unique. */
  datatype IndexModel = IndexModel(keys: seq<(string, int)>, unique: bool)

  /** A request the datastore sends to the MongoDB driver. */
  datatype DriverCall =
    | FindMany(coll: string, filter: Doc, opts: FindOptions)
    | InsertOne(coll: string, doc: Value)
    | FindOneAndUpdate(coll: string, filter: Doc, update: Doc)
    | FindOneAndDelete(coll: string, filter: Doc)
    | CreateIndexes(coll: string, indexes: seq<IndexModel>, maxTimeSeconds: int)

  /**
    One step of a driver cursor: what `cursor.Decode` left in a fresh zero Model (the whole
    document, part of it, or nothing) and the decode error, if any. A cursor is the sequence
    of steps for which `cursor.Next` said yes.
   */
  datatype DecodeResult = DecodeResult(model: Model, err: Option<Error>)

  /** `*mongo.SingleResult`, known by its error only (its document is never read). */
  datatype SingleResult = SingleResult(err: Option<Error>)

  /** The driver request of Find: projection from `Select`, filter from `Where`. */
  function FindRequest(query: Query): DriverCall
  {
    FindMany(query.from, query.where, FindOptions(Some(query.select), None, None, None))
  }

  /** The driver request of Paginate: sort, limit and skip from the pagination; no projection. */
  function PaginateRequest(query: Query, page: Pagination): DriverCall
  {
    FindMany(query.from, query.where, FindOptions(None, Some(page.sort), Some(page.limit), Some(Skip(page))))
  }

  /** The MongoDB implementation of Repository. */
  class Datastore {
    /** Every request sent to the driver, in order. */
    var driverCalls: seq<DriverCall>
    /** The driver's answers, as functions of the requests already sent and the new one. */
    const findReply: (seq<DriverCall>, DriverCall) -> Result<seq<DecodeResult>, Error>
    const insertReply: (seq<DriverCall>, DriverCall) -> Result<Value, Error>
    const singleReply: (seq<DriverCall>, DriverCall) -> SingleResult
    const indexReply: (seq<DriverCall>, DriverCall) -> Option<Error>

    constructor (findReply: (seq<DriverCall>, DriverCall) -> Result<seq<DecodeResult>, Error>,
                 insertReply: (seq<DriverCall>, DriverCall) -> Result<Value, Error>,
                 singleReply: (seq<DriverCall>, DriverCall) -> SingleResult,
                 indexReply: (seq<DriverCall>, DriverCall) -> Option<Error>)
      ensures driverCalls == []
      ensures this.findReply == findReply && this.insertReply == insertReply
      ensures this.singleReply == singleReply && this.indexReply == indexReply
    {
      driverCalls := [];
      this.findReply := findReply;
      this.insertReply := insertReply;
      this.singleReply := singleReply;
      this.indexReply := indexReply;
    }

    /**
      Builds one unique, ascending, single-key index per field, in order, and creates them
      in one request with a 5-second limit. An error ends the process (`log.Fatal`); the
      error it ends with is returned as `fatal`.
     */
    method EnsureIndexes(coll: string, indexQuery: seq<string>) returns (fatal: Option<Error>)
      modifies this
      ensures |driverCalls| == |old(driverCalls)| + 1
      ensures driverCalls[..|old(driverCalls)|] == old(driverCalls)
      ensures var call := driverCalls[|old(driverCalls)|];
        && call.CreateIndexes? && call.coll == coll && call.maxTimeSeconds == 5
        && |call.indexes| == |indexQuery|
        && (forall i :: 0 <= i < |indexQuery| ==> call.indexes[i] == IndexModel([(indexQuery[i], 1)], true))
        && fatal == indexReply(old(driverCalls), call)
    {
      var index: seq<IndexModel> := [];
      for i := 0 to |indexQuery|
        invariant |index| == i
        invariant forall j :: 0 <= j < i ==> index[j] == IndexModel([(indexQuery[j], 1)], true)
      {
        var tmp := IndexModel([(indexQuery[i], 1)], true);
        index := index + [tmp];
      }
      var call := CreateIndexes(coll, index, 5);
      fatal := indexReply(driverCalls, call);
      driverCalls := driverCalls + [call];
    }

    /**
      Runs the query and collects one Model per cursor step, in cursor order. A decode error
      is discarded and the (zero or partial) Model is appended all the same. A failed find
      gives no result and its error.
     */
    method Find(query: Query) returns (res: Option<seq<Model>>, err: Option<Error>)
      modifies this
      ensures driverCalls == old(driverCalls) + [FindRequest(query)]
      ensures res.None? <==> err.Some?
      ensures match findReply(old(driverCalls), FindRequest(query))
        case Err(e) => err == Some(e)
        case Ok(cursor) =>
          && res.Some? && |res.value| == |cursor|
          && forall i :: 0 <= i < |cursor| ==> res.value[i] == cursor[i].model
    {
      var call := FindRequest(query);
      var reply := findReply(driverCalls, call);
      driverCalls := driverCalls + [call];
      if reply.Err? {
        return None, Some(reply.error);
      }
      var cursor := reply.value;
      var acc: seq<Model> := [];
      var i := 0;
      while i < |cursor|
        invariant 0 <= i <= |cursor|
        invariant |acc| == i
        invariant forall j :: 0 <= j < i ==> acc[j] == cursor[j].model
      {
        var m := cursor[i].model;
        acc := acc + [m];
        i := i + 1;
      }
      return Some(acc), None;
    }

    /** Inserts `d` into the query's collection and returns the driver's result or error. */
    method Insert(query: Query, d: Value) returns (res: Option<Value>, err: Option<Error>)
      modifies this
      ensures driverCalls == old(driverCalls) + [InsertOne(query.from, d)]
      ensures res.None? <==> err.Some?
      ensures match insertReply(old(driverCalls), InsertOne(query.from, d))
        case Err(e) => err == Some(e)
        case Ok(v) => res == Some(v)
    {
      var call := InsertOne(query.from, d);
      var reply := insertReply(driverCalls, call);
      driverCalls := driverCalls + [call];
      if reply.Err? {
        return None, Some(reply.error);
      }
      return Some(reply.value), None;
    }

    /** Finds one document by `Where` and applies `d`; the result comes with its own error. */
    method Update(query: Query, d: Doc) returns (res: SingleResult, err: Option<Error>)
      modifies this
      ensures driverCalls == old(driverCalls) + [FindOneAndUpdate(query.from, query.where, d)]
      ensures res == singleReply(old(driverCalls), FindOneAndUpdate(query.from, query.where, d))
      ensures err == res.err
    {
      var call := FindOneAndUpdate(query.from, query.where, d);
      res := singleReply(driverCalls, call);
      driverCalls := driverCalls + [call];
      err := res.err;
    }

    /** Finds one document by `Where` and removes it; the result comes with its own error. */
    method Delete(query: Query) returns (res: SingleResult, err: Option<Error>)
      modifies this
      ensures driverCalls == old(driverCalls) + [FindOneAndDelete(query.from, query.where)]
      ensures res == singleReply(old(driverCalls), FindOneAndDelete(query.from, query.where))
      ensures err == res.err
    {
      var call := FindOneAndDelete(query.from, query.where);
      res := singleReply(driverCalls, call);
      driverCalls := driverCalls + [call];
      err := res.err;
    }

    /**
      Runs the query with sort, limit and skip taken from `page` (the projection in `Select`
      is not used) and walks the cursor decoding every document, but appends none of them:
      on success the result is always empty.
     */
    method Paginate(query: Query, page: Pagination) returns (res: Option<seq<Model>>, err: Option<Error>)
      modifies this
      ensures driverCalls == old(driverCalls) + [PaginateRequest(query, page)]
      ensures res.None? <==> err.Some?
      ensures match findReply(old(driverCalls), PaginateRequest(query, page))
        case Err(e) => err == Some(e)
        case Ok(_) => res == Some([])
    {
      var call := PaginateRequest(query, page);
      var reply := findReply(driverCalls, call);
      driverCalls := driverCalls + [call];
      if reply.Err? {
        return None, Some(reply.error);
      }
      var cursor := reply.value;
      var acc: seq<Model> := [];
      var i := 0;
      while i < |cursor|
        invariant 0 <= i <= |cursor|
      {
        var m := cursor[i].model;
        i := i + 1;
      }
      return Some(acc), None;
    }
  }

  /** A request the service layer makes of the Repository. */
  datatype Call =
    | FindCall(query: Query)
    | InsertCall(query: Query, doc: Value)
    | UpdateCall(query: Query, update: Doc)
    | DeleteCall(query: Query)
    | PaginateCall(query: Query, page: Pagination)

  /**
    The `Repository` interface as the service layer uses it: any implementation, known by
    its replies to the calls made so far and the new call. As the Datastore does, every
    list or insert reply is either a result or an error; the results of Update and Delete
    are never read, so only their errors are kept.
   */
  class Repository {
    /** Every call made of the repository, in order. */
    var calls: seq<Call>
    const listReply: (seq<Call>, Call) -> Result<seq<Model>, Error>
    const insertReply: (seq<Call>, Call) -> Result<Value, Error>
    const writeReply: (seq<Call>, Call) -> Option<Error>

    constructor (listReply: (seq<Call>, Call) -> Result<seq<Model>, Error>,
                 insertReply: (seq<Call>, Call) -> Result<Value, Error>,
                 writeReply: (seq<Call>, Call) -> Option<Error>)
      ensures calls == []
      ensures this.listReply == listReply && this.insertReply == insertReply
      ensures this.writeReply == writeReply
    {
      calls := [];
      this.listReply := listReply;
      this.insertReply := insertReply;
      this.writeReply := writeReply;
    }

    method Find(query: Query) returns (res: Result<seq<Model>, Error>)
      modifies this
      ensures calls == old(calls) + [FindCall(query)]
      ensures res == listReply(old(calls), FindCall(query))
    {
      res := listReply(calls, FindCall(query));
      calls := calls + [FindCall(query)];
    }

    method Insert(query: Query, d: Value) returns (res: Result<Value, Error>)
      modifies this
      ensures calls == old(calls) + [InsertCall(query, d)]
      ensures res == insertReply(old(calls), InsertCall(query, d))
    {
      res := insertReply(calls, InsertCall(query, d));
      calls := calls + [InsertCall(query, d)];
    }

    method Update(query: Query, d: Doc) returns (err: Option<Error>)
      modifies this
      ensures calls == old(calls) + [UpdateCall(query, d)]
      ensures err == writeReply(old(calls), UpdateCall(query, d))
    {
      err := writeReply(calls, UpdateCall(query, d));
      calls := calls + [UpdateCall(query, d)];
    }

    method Delete(query: Query) returns (err: Option<Error>)
      modifies this
      ensures calls == old(calls) + [DeleteCall(query)]
      ensures err == writeReply(old(calls), DeleteCall(query))
    {
      err := writeReply(calls, DeleteCall(query));
      calls := calls + [DeleteCall(query)];
    }

    method Paginate(query: Query, page: Pagination) returns (res: Result<seq<Model>, Error>)
      modifies this
      ensures calls == old(calls) + [PaginateCall(query, page)]
      ensures res == listReply(old(calls), PaginateCall(query, page))
    {
      res := listReply(calls, PaginateCall(query, page));
      calls := calls + [PaginateCall(query, page)];
    }
  }
}

=== FILE: errors.dfy ===
/**
  The Go `error` values that reach the core, and the text `err.Error()` gives for them.
  Go's nil error is not an `Error`: where the source returns a possibly-nil error the
  model returns an `Option<Error>`.
 */
module Errors {

  /** One entry of a MongoDB write exception's list of write errors. */
  datatype WriteError = WriteError(code: int, message: string)

  /** The two reasons `strconv` gives for rejecting a number. */
  datatype NumErrorKind = ErrSyntax | ErrRange

  datatype Error =
      /** `mongo.WriteException`; `text` is what its Error() method reports. */
    | WriteException(writeErrors: seq<WriteError>, text: string)
      /** `*fiber.Error`, created by `fiber.NewError(code, message)`. */
    | FiberError(code: int, message: string)
      /** `*strconv.NumError` for function `fn` and input `num`. */
    | NumError(fn: string, num: string, kind: NumErrorKind)
      /** `primitive.ErrInvalidHex`: an object id that is not 24 characters long. */
    | InvalidHex
      /** `hex.InvalidByteError`: the first character that is not a hexadecimal digit. */
    | InvalidByte(b: char)
      /** Any other error of the database driver, known only by its text. */
    | DriverError(text: string)

  /** HTTP status codes, as fiber names them. */
  const StatusOK := 200
  const StatusCreated := 201
  const StatusNotFound := 404
  const StatusConflict := 409
  const StatusInternalServerError := 500

  /** The text of the driver's `mongo.ErrNoDocuments`. */
  const NoDocumentsText := "mongo: no documents in result"
  const ErrNoDocuments := DriverError(NoDocumentsText)

  /** The text of `primitive.ErrInvalidHex`. */
  const InvalidHexText := "the provided hex string is not a valid ObjectID"

  /** An upper-case hexadecimal digit, as Go's `%U` and `%X` write them. */
  predicate IsUpperHexDigit(ch: char)
  {
    '0' <= ch <= '9' || 'A' <= ch <= 'F'
  }

  /** The value of one upper-case hexadecimal digit (0 for any other character). */
  function UpperDigitValue(ch: char): (v: nat)
    ensures v < 16
  {
    if '0' <= ch <= '9' then ch as int - '0' as int
    else if 'A' <= ch <= 'F' then ch as int - 'A' as int + 10
    else 0
  }

  /** The value of a string of upper-case hexadecimal digits, most significant first. */
  function UpperHexValue(s: string): nat
  {
    if s == [] then 0 else UpperHexValue(s[..|s| - 1]) * 16 + UpperDigitValue(s[|s| - 1])
  }

  /** The upper-case hexadecimal digits of `n`, without leading zeros. */
  function UpperHex(n: nat): (s: string)
    ensures s != [] && (forall i :: 0 <= i < |s| ==> IsUpperHexDigit(s[i]))
    ensures UpperHexValue(s) == n
  {
    var r := n % 16;
    var d := if r < 10 then ('0' as int + r) as char else ('A' as int + r - 10) as char;
    if n < 16 then [d]
    else
      var s := UpperHex(n / 16) + [d];
      assert s[..|s| - 1] == UpperHex(n / 16);
      s
  }

  /**
    `UpperHex` has no leading zero, and its width is the number of hex digits the value needs:
    four or fewer exactly below 0x10000.
   */
  lemma {:induction false} UpperHexWidth(n: nat)
    ensures n > 0 ==> UpperHex(n)[0] != '0'
    ensures n < 0x10 <==> |UpperHex(n)| == 1
    ensures n < 0x100 <==> |UpperHex(n)| <= 2
    ensures n < 0x1000 <==> |UpperHex(n)| <= 3
    ensures n < 0x1_0000 <==> |UpperHex(n)| <= 4
  {
    if n >= 16 {
      var q := n / 16;
      UpperHexWidth(q);
      assert UpperHex(n)[..|UpperHex(n)| - 1] == UpperHex(q);
      assert (n < 0x100 <==> q < 0x10) && (n < 0x1000 <==> q < 0x100) && (n < 0x1_0000 <==> q < 0x1000);
    }
  }

  /** A leading zero does not change the value of a hexadecimal numeral. */
  lemma {:induction false} LeadingZero(s: string)
    ensures UpperHexValue("0" + s) == UpperHexValue(s)
  {
    if s != [] {
      assert ("0" + s)[..|s|] == "0" + s[..|s| - 1];
      LeadingZero(s[..|s| - 1]);
    }
  }

  /** `s` left-padded with '0' to at least `width` characters. */
  function PadZeros(s: string, width: nat): (r: string)
    ensures |r| == if |s| < width then width else |s|
    ensures (forall i :: 0 <= i < |s| ==> IsUpperHexDigit(s[i]))
            ==> (forall i :: 0 <= i < |r| ==> IsUpperHexDigit(r[i]))
    ensures UpperHexValue(r) == UpperHexValue(s)
    decreases width - |s|
  {
    if |s| < width then LeadingZero(s); PadZeros("0" + s, width) else s
  }

  /**
    Go's `%#U` verb, that is `U+%04X` followed by the quoted character when it is printable
    (only printable ASCII is recognised here): exactly four upper-case hex digits below
    U+10000, and above it the digits without leading zeros. Either way they read back as the
    code point.
   */
  function QuotedCodePoint(c: char): (r: string)
    ensures var k := |r| - (if ' ' <= c <= '~' then 4 else 0);
      6 <= k <= |r| && r[..2] == "U+"
      && (forall i :: 2 <= i < k ==> IsUpperHexDigit(r[i]))
      && UpperHexValue(r[2..k]) == c as int
      && r[k..] == if ' ' <= c <= '~' then " '" + [c] + "'" else ""
    ensures var k := |r| - (if ' ' <= c <= '~' then 4 else 0);
      (c as int < 0x1_0000 ==> k == 6) && (c as int >= 0x1_0000 ==> r[2] != '0')
  {
    UpperHexWidth(c as int);
    var digits := PadZeros(UpperHex(c as int), 4);
    var r := "U+" + digits + (if ' ' <= c <= '~' then " '" + [c] + "'" else "");
    assert r[2..2 + |digits|] == digits;
    r
  }

  /**
    What `err.Error()` returns. (The quoting of `strconv.Quote` is not modelled.) None of the
    parse errors reads as the driver's no-documents text; the texts of driver errors, write
    exceptions and fiber errors are the ones they carry.
   */
  function ErrorText(e: Error): (t: string)
    ensures e.NumError? || e.InvalidHex? || e.InvalidByte? ==> t != NoDocumentsText
    ensures e.NumError? ==> |t| >= 8 && t[..8] == "strconv."
    ensures e.InvalidByte? ==> t == "encoding/hex: invalid byte: " + QuotedCodePoint(e.b)
    ensures e.DriverError? || e.WriteException? ==> t == e.text
    ensures e.FiberError? ==> t == e.message
  {
    match e
    case WriteException(_, text) => text
    case FiberError(_, message) => message
    case NumError(fn, num, kind) =>
      "strconv." + fn + ": parsing \"" + num + "\": "
      + (if kind == ErrSyntax then "invalid syntax" else "value out of range")
    case InvalidHex => InvalidHexText
    case InvalidByte(b) => "encoding/hex: invalid byte: " + QuotedCodePoint(b)
    case DriverError(text) => text
  }

  /** The text of an invalid-byte error for 'm', as Go formats it. */
  lemma InvalidByteText()
    ensures ErrorText(InvalidByte('m')) == "encoding/hex: invalid byte: U+006D 'm'"
  {
    assert 'm' as int == 109 && 109 % 16 == 13 && 109 / 16 == 6;
    assert UpperHex(6) == "6";
    assert UpperHex(109) == "6D";
    assert "0" + "6D" == "06D" && "0" + "06D" == "006D";
    assert PadZeros("006D", 4) == "006D";
    assert PadZeros("06D", 4) == "006D";
    assert PadZeros("6D", 4) == "006D";
    assert QuotedCodePoint('m') == "U+006D 'm'";
  }
}

=== FILE: models.dfy ===
/**
  The persisted entity and its two pre-flight checks: field validation (only the e-mail
  field carries constraints) and the zero-value test used to refuse empty updates.
 */
module Models {

  /** An instant; 0 stands for Go's zero `time.Time`. */
  type Time = int

  const ZeroTime: Time := 0

  datatype Model = Model(id: string, name: string, email: string, createdAt: Time, updatedAt: Time)

  /** `models.Model{}`. */
  const ZeroModel := Model("", "", "", ZeroTime, ZeroTime)

  /** The payload of a successful create: the identifier the store assigned. */
  datatype CreateResponse = CreateResponse(insertedId: string)

  /** One failed constraint, as reported to the client. */
  datatype ValidationError = ValidationError(failedField: string, tag: string, value: string)

  /** What the validator library reports per failed field: namespace, tag and tag parameter. */
  datatype FieldError = FieldError(structNamespace: string, tag: string, param: string)

  /**
    `validator.Struct` on a Model. Only Email is tagged (`required,email`); the tags are tried
    in order and a field reports its first failing tag only. Neither tag takes a parameter.
    Whether a string is an e-mail address is the library's own rule, given as `isEmail`.
   */
  function FieldErrors(m: Model, isEmail: string -> bool): (errs: seq<FieldError>)
    ensures |errs| <= 1
    ensures errs == [] <==> m.email != "" && isEmail(m.email)
    ensures forall i :: 0 <= i < |errs| ==>
      errs[i].structNamespace == "Model.Email" && errs[i].param == ""
      && errs[i].tag == (if m.email == "" then "required" else "email")
  {
    if m.email == "" then [FieldError("Model.Email", "required", "")]
    else if !isEmail(m.email) then [FieldError("Model.Email", "email", "")]
    else []
  }

  /** The loop of `ValidateStruct`: one record per field error, in order, Value taken from Param. */
  function ToValidationErrors(errs: seq<FieldError>): (r: seq<ValidationError>)
    ensures |r| == |errs|
    ensures forall i :: 0 <= i < |errs| ==>
      r[i] == ValidationError(errs[i].structNamespace, errs[i].tag, errs[i].param)
  {
    if errs == [] then []
    else
      [ValidationError(errs[0].structNamespace, errs[0].tag, errs[0].param)]
      + ToValidationErrors(errs[1..])
  }

  /** `Model.ValidateStruct`; the empty sequence stands for Go's nil slice. */
  function ValidateStruct(m: Model, isEmail: string -> bool): (r: seq<ValidationError>)
    ensures m.email == "" ==> r == [ValidationError("Model.Email", "required", "")]
    ensures m.email != "" && !isEmail(m.email) ==> r == [ValidationError("Model.Email", "email", "")]
    ensures m.email != "" && isEmail(m.email) ==> r == []
  {
    ToValidationErrors(FieldErrors(m, isEmail))
  }

  /** Only Email is constrained: models that agree on it validate alike, whatever their names. */
  lemma ValidationSeesOnlyEmail(m1: Model, m2: Model, isEmail: string -> bool)
    requires m1.email == m2.email
    ensures ValidateStruct(m1, isEmail) == ValidateStruct(m2, isEmail)
  {
  }

  /**
    `Model.IsNil`. The comparison with the zero value decides; the reflect-kind switch that
    follows it never fires, because the kind of a struct is Struct.
   */
  function IsNil(m: Model): (r: bool)
    ensures r <==> m.id == "" && m.name == "" && m.email == ""
                   && m.createdAt == ZeroTime && m.updatedAt == ZeroTime
  {
    m == ZeroModel
  }

  /** A model that passes validation is never the zero model. */
  lemma ValidModelIsNotNil(m: Model, isEmail: string -> bool)
    requires ValidateStruct(m, isEmail) == []
    ensures !IsNil(m)
  {
  }
}

=== FILE: primitive.dfy ===
/**
  MongoDB object identifiers: twelve bytes, written as 24 hexadecimal digits.
  `ObjectIdFromHex` is the driver's `primitive.ObjectIDFromHex` (which decodes with
  `hex.DecodeString`); `Hex` is `ObjectID.Hex`, its inverse.
 */
module Primitive {
  import opened Wrappers
  import opened Errors

  type Byte = x: int | 0 <= x < 256

  type ObjectId = s: seq<Byte> | |s| == 12 witness [0, 0, 0, 0, 0, 0, 0, 0, 0, 0, 0, 0]

  predicate IsHexDigit(c: char)
  {
    '0' <= c <= '9' || 'a' <= c <= 'f' || 'A' <= c <= 'F'
  }

  function HexDigitValue(c: char): (v: nat)
    requires IsHexDigit(c)
    ensures v < 16
  {
    if '0' <= c <= '9' then c as int - '0' as int
    else if 'a' <= c <= 'f' then c as int - 'a' as int + 10
    else c as int - 'A' as int + 10
  }

  /** The lower-case digit `ObjectID.Hex` writes for `v`. */
  function HexDigit(v: nat): (c: char)
    requires v < 16
    ensures IsHexDigit(c) && HexDigitValue(c) == v
  {
    if v < 10 then ('0' as int + v) as char else ('a' as int + v - 10) as char
  }

  /** `s[j]` is the first character of `s` that is not a hexadecimal digit. */
  predicate FirstNonHex(s: string, j: nat)
    requires j < |s|
  {
    !IsHexDigit(s[j]) && forall k :: 0 <= k < j ==> IsHexDigit(s[k])
  }

  /**
    `hex.DecodeString` on an even-length string: pairs are decoded left to right, and the
    first character that is not a hexadecimal digit (the first of a pair before the second)
    is reported.
   */
  function DecodeHex(s: string): (r: Result<seq<Byte>, Error>)
    requires |s| % 2 == 0
    ensures r.Ok? <==> forall i :: 0 <= i < |s| ==> IsHexDigit(s[i])
    ensures r.Ok? ==> |r.value| == |s| / 2
    ensures r.Ok? ==> forall i :: 0 <= i < |r.value| ==>
      r.value[i] == 16 * HexDigitValue(s[2 * i]) + HexDigitValue(s[2 * i + 1])
    ensures r.Err? ==> exists j :: 0 <= j < |s| && FirstNonHex(s, j) && r.error == InvalidByte(s[j])
  {
    if s == [] then Ok([])
    else if !IsHexDigit(s[0]) then Err(InvalidByte(s[0]))
    else if !IsHexDigit(s[1]) then Err(InvalidByte(s[1]))
    else
      match DecodeHex(s[2..])
      case Err(e) =>
        assert forall j :: 0 <= j < |s[2..]| && FirstNonHex(s[2..], j) ==> FirstNonHex(s, j + 2);
        Err(e)
      case Ok(rest) =>
        var b: Byte := 16 * HexDigitValue(s[0]) + HexDigitValue(s[1]);
        assert forall i :: 2 <= i < |s| ==> s[i] == s[2..][i - 2];
        Ok([b] + rest)
  }

  /** `primitive.ObjectIDFromHex`: exactly 24 hexadecimal digits, either case. */
  function ObjectIdFromHex(s: string): (r: Result<ObjectId, Error>)
    ensures r.Ok? <==> |s| == 24 && forall i :: 0 <= i < |s| ==> IsHexDigit(s[i])
    ensures r.Ok? ==> forall i :: 0 <= i < 12 ==>
      r.value[i] == 16 * HexDigitValue(s[2 * i]) + HexDigitValue(s[2 * i + 1])
    ensures |s| != 24 ==> r == Err(InvalidHex)
    ensures |s| == 24 && r.Err? ==>
      exists j :: 0 <= j < |s| && FirstNonHex(s, j) && r.error == InvalidByte(s[j])
  {
    if |s| != 24 then Err(InvalidHex)
    else
      match DecodeHex(s)
      case Err(e) => Err(e)
      case Ok(bytes) => Ok(bytes)
  }

  /** `ObjectID.Hex`: two lower-case digits per byte. */
  function Hex(id: ObjectId): (s: string)
    ensures |s| == 24
  {
    HexOf(id)
  }

  function HexOf(bytes: seq<Byte>): (s: string)
    ensures |s| == 2 * |bytes|
    ensures forall i :: 0 <= i < |bytes| ==>
      s[2 * i] == HexDigit(bytes[i] / 16) && s[2 * i + 1] == HexDigit(bytes[i] % 16)
  {
    if bytes == [] then []
    else [HexDigit(bytes[0] / 16), HexDigit(bytes[0] % 16)] + HexOf(bytes[1..])
  }

  /** Every identifier the driver prints is read back as the same identifier. */
  lemma HexRoundTrip(id: ObjectId)
    ensures ObjectIdFromHex(Hex(id)) == Ok(id)
  {
    var s := Hex(id);
    forall i | 0 <= i < |s|
      ensures IsHexDigit(s[i])
    {
      var j := i / 2;
      assert s[2 * j] == HexDigit(id[j] / 16) && s[2 * j + 1] == HexDigit(id[j] % 16);
      assert i == 2 * j || i == 2 * j + 1;
    }
    var bytes := DecodeHex(s).value;
    forall i | 0 <= i < 12
      ensures bytes[i] == id[i]
    {
      assert s[2 * i] == HexDigit(id[i] / 16) && s[2 * i + 1] == HexDigit(id[i] % 16);
    }
    assert bytes == id;
  }
}

=== FILE: services.dfy ===
/**
  The service layer of internal/v1/services: five use cases, each parsing its parameters,
  building a Query or Pagination, making one Repository call, normalising storage errors
  where the source does, and building a ServiceResponse.
 */
module Services {
  import opened Wrappers
  import opened Errors
  import opened Strconv
  import opened Primitive
  import opened Models
  import opened Utils
  import opened Datastore

  /** What a ServiceResponse carries in `Data`. */
  datatype Payload =
    | NoData
    | ModelList(models: seq<Model>)
    | OneModel(model: Model)
    | Inserted(created: CreateResponse)

  /** The response envelope: status, message and optional payload. */
  datatype ServiceResponse = ServiceResponse(status: int, message: string, data: Payload)

  /** `ServiceResponse{}`, returned beside an error by Get and Create. */
  const EmptyResponse := ServiceResponse(0, "", NoData)

  const ModelsCollection := "models"

  /** Page size when the request gives none. */
  const DefaultLimit: Int64 := 30

  /** `bson.M{"createdAt": 1}`. */
  const CreatedAtAscending: Doc := map["createdAt" := IntVal(1)]

  /** `datastore.Query{From: "models"}`: no projection, no filter. */
  const ModelsQuery := Query(map[], map[], ModelsCollection)

  /** The query of GetById: only the name is projected. */
  function ByIdQuery(oid: ObjectId): Query
  {
    Query(map["name" := IntVal(1)], map["_id" := ObjectIdVal(oid)], ModelsCollection)
  }

  /** The query of Update and Delete: the identifier filter, no projection. */
  function IdQuery(oid: ObjectId): Query
  {
    Query(map[], map["_id" := ObjectIdVal(oid)], ModelsCollection)
  }

  /** `bson.M{"$set": data}`. */
  function SetDoc(m: Model): Doc
  {
    map["$set" := ModelVal(m)]
  }

  /**
    The parameter stage of Get: the page must parse; an empty limit means 30, any other must
    parse. The page error is reported first. Positivity is not checked.
   */
  function GetPagination(page: string, limit: string): (r: Result<Pagination, Error>)
    ensures Atoi(page).Err? ==> r == Err(Atoi(page).error)
    ensures Atoi(page).Ok? && limit != "" && Atoi(limit).Err? ==> r == Err(Atoi(limit).error)
    ensures r.Ok? <==> Atoi(page).Ok? && (limit == "" || Atoi(limit).Ok?)
    ensures r.Ok? ==> r.value.page == Atoi(page).value && r.value.sort == CreatedAtAscending
    ensures r.Ok? ==> r.value.limit == if limit == "" then DefaultLimit else Atoi(limit).value
  {
    match Atoi(page)
    case Err(e) => Err(e)
    case Ok(p) =>
      if limit == "" then Ok(Pagination(p, DefaultLimit, CreatedAtAscending))
      else
        match Atoi(limit)
        case Err(e) => Err(e)
        case Ok(l) => Ok(Pagination(p, l, CreatedAtAscending))
  }

  /** Every page written as an integer, with no limit, asks for 30 models sorted by creation time. */
  lemma GetPaginationDefault(n: Int64)
    ensures GetPagination(Itoa(n), "") == Ok(Pagination(n, DefaultLimit, CreatedAtAscending))
  {
    AtoiItoa(n);
  }

  /** Any page and limit written as integers are accepted as they are, zero and negatives included. */
  lemma GetPaginationAcceptsIntegers(n: Int64, m: Int64)
    ensures GetPagination(Itoa(n), Itoa(m)) == Ok(Pagination(n, m, CreatedAtAscending))
  {
    AtoiItoa(n);
    AtoiItoa(m);
    assert Itoa(m) != [];
  }

  /** Page "0" and limit "-2" reach the repository unchanged. */
  lemma GetPaginationNoPositivityCheck()
    ensures GetPagination("0", "-2") == Ok(Pagination(0, -2, CreatedAtAscending))
  {
    GetPaginationAcceptsIntegers(0, -2);
    assert Itoa(0) == "0";
    assert Itoa(-2) == "-2";
  }

  /** The caller's `*models.Model`, which Create and Update stamp in place. */
  class ModelRef {
    var value: Model

    constructor (m: Model)
      ensures value == m
    {
      value := m;
    }
  }

  class Service {
    const r: Repository
    /**
      The JSON marshal-then-unmarshal of a storage result into a CreateResponse, which may
      fail with the JSON library's error.
     */
    const jsonRemap: Value -> Result<CreateResponse, Error>

    constructor (r: Repository, jsonRemap: Value -> Result<CreateResponse, Error>)
      ensures this.r == r && this.jsonRemap == jsonRemap
    {
      this.r := r;
      this.jsonRemap := jsonRemap;
    }

    /** `mapPayload`: a JSON failure becomes a 500 carrying the JSON error's text. */
    function MapPayload(res: Value): (m: Result<CreateResponse, Error>)
      ensures jsonRemap(res).Ok? ==> m == jsonRemap(res)
      ensures jsonRemap(res).Err? ==>
        m == Err(FiberError(StatusInternalServerError, ErrorText(jsonRemap(res).error)))
    {
      match jsonRemap(res)
      case Err(e) => Err(FiberError(StatusInternalServerError, ErrorText(e)))
      case Ok(p) => Ok(p)
    }

    /**
      Lists one page of models. A parameter error is returned before any storage call; a
      Paginate error is returned as it is, without normalisation.
     */
    method Get(page: string, limit: string) returns (resp: ServiceResponse, err: Option<Error>)
      modifies r
      ensures match GetPagination(page, limit)
        case Err(e) => resp == EmptyResponse && err == Some(e) && r.calls == old(r.calls)
        case Ok(p) =>
          && r.calls == old(r.calls) + [PaginateCall(ModelsQuery, p)]
          && match r.listReply(old(r.calls), PaginateCall(ModelsQuery, p))
             case Err(e) => resp == EmptyResponse && err == Some(e)
             case Ok(ms) =>
               resp == ServiceResponse(StatusOK, "Get Models Successful", ModelList(ms)) && err == None
    {
      var q := Query(map[], map[], ModelsCollection);

      var parsedPage := Atoi(page);
      if parsedPage.Err? {
        return EmptyResponse, Some(parsedPage.error);
      }
      var p := parsedPage.value;

      var l: Int64 := DefaultLimit;
      if |limit| != 0 {
        var parsedLimit := Atoi(limit);
        if parsedLimit.Err? {
          return EmptyResponse, Some(parsedLimit.error);
        }
        l := parsedLimit.value;
      }

      var pOpts := Pagination(p, l, CreatedAtAscending);

      var res := r.Paginate(q, pOpts);
      if res.Err? {
        return EmptyResponse, Some(res.error);
      }
      resp := ServiceResponse(StatusOK, "Get Models Successful", ModelList(res.value));
      err := None;
    }

    /**
      Looks one model up by identifier. A malformed identifier is returned before any storage
      call; a Find error is returned as it is; no match is a 404; otherwise the first match.
     */
    method GetById(id: string) returns (resp: Option<ServiceResponse>, err: Option<Error>)
      modifies r
      ensures resp.None? <==> err.Some?
      ensures match ObjectIdFromHex(id)
        case Err(e) => err == Some(e) && r.calls == old(r.calls)
        case Ok(oid) =>
          && r.calls == old(r.calls) + [FindCall(ByIdQuery(oid))]
          && match r.listReply(old(r.calls), FindCall(ByIdQuery(oid)))
             case Err(e) => err == Some(e)
             case Ok(ms) =>
               if ms == [] then err == Some(FiberError(StatusNotFound, "Model Not Found"))
               else resp == Some(ServiceResponse(StatusOK, "Get Model by ID Successful", OneModel(ms[0])))
    {
      var objectId := ObjectIdFromHex(id);
      if objectId.Err? {
        return None, Some(objectId.error);
      }

      var query := Query(map["name" := IntVal(1)], map["_id" := ObjectIdVal(objectId.value)], ModelsCollection);

      var res := r.Find(query);
      if res.Err? {
        return None, Some(res.error);
      }
      if |res.value| == 0 {
        return None, Some(FiberError(StatusNotFound, "Model Not Found"));
      }

      return Some(ServiceResponse(StatusOK, "Get Model by ID Successful", OneModel(res.value[0]))), None;
    }

    /**
      Stamps the creation time into the caller's model, inserts it, and answers 201 with the
      reshaped insert result. An Insert error goes through ErrorWrapper once; a reshaping
      failure is a 500.
     */
    method Create(data: ModelRef, now: Time) returns (resp: ServiceResponse, err: Option<Error>)
      modifies data, r
      ensures data.value == old(data.value).(createdAt := now)
      ensures r.calls == old(r.calls) + [InsertCall(ModelsQuery, ModelVal(data.value))]
      ensures match r.insertReply(old(r.calls), InsertCall(ModelsQuery, ModelVal(data.value)))
        case Err(e) => resp == EmptyResponse && err == Some(ErrorWrapper(e))
        case Ok(v) =>
          match MapPayload(v)
          case Err(e) => resp == EmptyResponse && err == Some(FiberError(StatusInternalServerError, ErrorText(e)))
          case Ok(payload) =>
            resp == ServiceResponse(StatusCreated, "Created Model Successfully", Inserted(payload)) && err == None
    {
      var query := Query(map[], map[], ModelsCollection);

      data.value := data.value.(createdAt := now);

      var res := r.Insert(query, ModelVal(data.value));
      if res.Err? {
        return EmptyResponse, Some(ErrorWrapper(res.error));
      }

      var payload := MapPayload(res.value);
      if payload.Err? {
        return EmptyResponse, Some(FiberError(StatusInternalServerError, ErrorText(payload.error)));
      }

      resp := ServiceResponse(StatusCreated, "Created Model Successfully", Inserted(payload.value));
      err := None;
    }

    /**
      Parses the identifier before anything else, stamps the update time into the caller's
      model and sends `{"$set": model}`. An Update error goes through ErrorWrapper once.
     */
    method Update(id: string, data: ModelRef, now: Time) returns (resp: Option<ServiceResponse>, err: Option<Error>)
      modifies data, r
      ensures resp.None? <==> err.Some?
      ensures match ObjectIdFromHex(id)
        case Err(e) => err == Some(e) && r.calls == old(r.calls) && data.value == old(data.value)
        case Ok(oid) =>
          && data.value == old(data.value).(updatedAt := now)
          && r.calls == old(r.calls) + [UpdateCall(IdQuery(oid), SetDoc(data.value))]
          && match r.writeReply(old(r.calls), UpdateCall(IdQuery(oid), SetDoc(data.value)))
             case Some(e) => err == Some(ErrorWrapper(e))
             case None => resp == Some(ServiceResponse(StatusOK, "Update Successful", NoData))
    {
      var objectId := ObjectIdFromHex(id);
      if objectId.Err? {
        return None, Some(objectId.error);
      }

      var query := Query(map[], map["_id" := ObjectIdVal(objectId.value)], ModelsCollection);

      data.value := data.value.(updatedAt := now);

      var e := r.Update(query, map["$set" := ModelVal(data.value)]);
      if e.Some? {
        return None, Some(ErrorWrapper(e.value));
      }

      return Some(ServiceResponse(StatusOK, "Update Successful", NoData)), None;
    }

    /**
      Parses the identifier before anything else and deletes by it. A Delete error goes
      through ErrorWrapper once.
     */
    method Delete(id: string) returns (resp: Option<ServiceResponse>, err: Option<Error>)
      modifies r
      ensures resp.None? <==> err.Some?
      ensures match ObjectIdFromHex(id)
        case Err(e) => err == Some(e) && r.calls == old(r.calls)
        case Ok(oid) =>
          && r.calls == old(r.calls) + [DeleteCall(IdQuery(oid))]
          && match r.writeReply(old(r.calls), DeleteCall(IdQuery(oid)))
             case Some(e) => err == Some(ErrorWrapper(e))
             case None => resp == Some(ServiceResponse(StatusOK, "Delete Successful", NoData))
    {
      var objectId := ObjectIdFromHex(id);
      if objectId.Err? {
        return None, Some(objectId.error);
      }

      var query := Query(map[], map["_id" := ObjectIdVal(objectId.value)], ModelsCollection);

      var e := r.Delete(query);
      if e.Some? {
        return None, Some(ErrorWrapper(e.value));
      }

      return Some(ServiceResponse(StatusOK, "Delete Successful", NoData)), None;
    }
  }
}

=== FILE: strconv.dfy ===
/**
  Go's 64-bit `int` and the decimal parser `strconv.Atoi` the service layer uses on its
  query parameters, with the formatter `strconv.Itoa` as its inverse.
  Strings are read one character per byte, as they are for ASCII input.
 */
module Strconv {
  import opened Wrappers
  import opened Errors

  const MinInt64: int := -0x8000_0000_0000_0000
  const MaxInt64: int := 0x7fff_ffff_ffff_ffff
  const MaxUint64: int := 0xffff_ffff_ffff_ffff

  /** Go's `int` on a 64-bit platform. */
  type Int64 = x: int | -0x8000_0000_0000_0000 <= x <= 0x7fff_ffff_ffff_ffff

  /** Two's-complement wrap-around of Go's 64-bit integer arithmetic. */
  function Wrap64(x: int): (r: Int64)
    ensures MinInt64 <= x <= MaxInt64 ==> r == x
  {
    (x + 0x8000_0000_0000_0000) % 0x1_0000_0000_0000_0000 - 0x8000_0000_0000_0000
  }

  /** Adding a multiple of 2^64 does not change the wrapped value. */
  lemma {:induction false} Wrap64Shift(x: int, j: int)
    ensures Wrap64(x + 0x1_0000_0000_0000_0000 * j) == Wrap64(x)
    decreases if j < 0 then -j else j
  {
    var m := 0x1_0000_0000_0000_0000;
    if j > 0 {
      Wrap64Shift(x, j - 1);
      assert x + m * j == (x + m * (j - 1)) + m;
    } else if j < 0 {
      Wrap64Shift(x, j + 1);
      assert x + m * j + m == x + m * (j + 1);
    }
  }

  /** Wrapping an operand first does not change a wrapped product. */
  lemma WrapThenMultiply(a: int, b: int)
    ensures Wrap64(Wrap64(a) * b) == Wrap64(a * b)
  {
    var m := 0x1_0000_0000_0000_0000;
    var q := (a + 0x8000_0000_0000_0000) / m;
    assert Wrap64(a) == a - m * q;
    assert Wrap64(a) * b == a * b + m * (-q * b) by {
      assert (a - m * q) * b == a * b - m * q * b;
    }
    Wrap64Shift(a * b, -q * b);
  }

  predicate IsDigit(c: char) { '0' <= c <= '9' }

  predicate AllDigits(s: string) { forall i :: 0 <= i < |s| ==> IsDigit(s[i]) }

  /** The value of a run of decimal digits, most significant first. */
  function DecimalValue(ds: string): nat
    requires AllDigits(ds)
  {
    if ds == [] then 0
    else 10 * DecimalValue(ds[..|ds| - 1]) + (ds[|ds| - 1] as int - '0' as int)
  }

  /** The length of the longest prefix of `s` made of decimal digits. */
  function DigitPrefixLen(s: string): (k: nat)
    ensures k <= |s|
    ensures AllDigits(s[..k])
    ensures k < |s| ==> !IsDigit(s[k])
  {
    if s != [] && IsDigit(s[0]) then
      var k := 1 + DigitPrefixLen(s[1..]);
      assert s[..k] == [s[0]] + s[1..][..k - 1];
      k
    else 0
  }

  /** `s` without its leading sign, if it has one. */
  function Unsigned(s: string): string
  {
    if s != [] && (s[0] == '-' || s[0] == '+') then s[1..] else s
  }

  /** `s` is an optional sign followed by at least one decimal digit. */
  predicate IsDecimal(s: string)
  {
    Unsigned(s) != [] && AllDigits(Unsigned(s))
  }

  /** The mathematical value of a well-formed decimal. */
  function DecimalOf(s: string): int
    requires IsDecimal(s)
  {
    if s[0] == '-' then -(DecimalValue(Unsigned(s)) as int) else DecimalValue(Unsigned(s))
  }

  /** The digit run at the start of `s`, after its sign, exceeds the unsigned 64-bit range. */
  predicate DigitRunOverflows(s: string)
  {
    var ds := Unsigned(s);
    DecimalValue(ds[..DigitPrefixLen(ds)]) > MaxUint64
  }

  /**
    `strconv.Atoi`: an optional sign and decimal digits, within the range of `int`.
    A digit run that exceeds the unsigned 64-bit range before the first bad character is
    reported as out of range; any other malformed input, the empty string included, as a
    syntax error. Either error carries the whole input.
   */
  function Atoi(s: string): (r: Result<Int64, Error>)
    ensures r.Ok? <==> IsDecimal(s) && MinInt64 <= DecimalOf(s) <= MaxInt64
    ensures r.Ok? ==> r.value == DecimalOf(s)
    ensures r.Err? ==> r.error.NumError? && r.error.fn == "Atoi" && r.error.num == s
    ensures r.Err? ==> r.error.kind == if IsDecimal(s) || DigitRunOverflows(s) then ErrRange else ErrSyntax
  {
    var digits := Unsigned(s);
    var k := DigitPrefixLen(digits);
    if digits == [] then Err(NumError("Atoi", s, ErrSyntax))
    else if DecimalValue(digits[..k]) > MaxUint64 then
      assert k == |digits| ==> digits[..k] == digits;
      Err(NumError("Atoi", s, ErrRange))
    else if k < |digits| then Err(NumError("Atoi", s, ErrSyntax))
    else
      assert digits[..k] == digits;
      var v := if s[0] == '-' then -(DecimalValue(digits) as int) else DecimalValue(digits);
      if MinInt64 <= v <= MaxInt64 then Ok(v) else Err(NumError("Atoi", s, ErrRange))
  }

  /** The shortest decimal spelling of `n`. */
  function NatToDecimal(n: nat): (ds: string)
    ensures ds != [] && AllDigits(ds) && DecimalValue(ds) == n
  {
    if n < 10 then [('0' as int + n) as char]
    else
      var ds := NatToDecimal(n / 10) + [('0' as int + n % 10) as char];
      assert ds[..|ds| - 1] == NatToDecimal(n / 10);
      ds
  }

  /** `strconv.Itoa`. */
  function Itoa(n: Int64): string
  {
    if n < 0 then "-" + NatToDecimal(-(n as int)) else NatToDecimal(n)
  }

  /** Atoi reads back every number Itoa writes. */
  lemma AtoiItoa(n: Int64)
    ensures Atoi(Itoa(n)) == Ok(n)
  {
    var s := Itoa(n);
    if n < 0 {
      assert Unsigned(s) == NatToDecimal(-(n as int));
    } else {
      assert IsDigit(s[0]);
      assert Unsigned(s) == NatToDecimal(n);
    }
  }

  /**
    Every well-formed decimal beyond the range of `int`, whatever its sign or leading zeros,
    is rejected as out of range.
   */
  lemma AtoiRangeError(s: string)
    requires IsDecimal(s) && !(MinInt64 <= DecimalOf(s) <= MaxInt64)
    ensures Atoi(s) == Err(NumError("Atoi", s, ErrRange))
  {
  }

  /** A malformed input whose digit run fits in 64 unsigned bits is a syntax error. */
  lemma AtoiSyntaxError(s: string)
    requires !IsDecimal(s) && !DigitRunOverflows(s)
    ensures Atoi(s) == Err(NumError("Atoi", s, ErrSyntax))
  {
  }

  /** The canonical spelling of a number above the range of `int` is out of range. */
  lemma AtoiCanonicalRangeError(n: nat)
    requires n > MaxInt64
    ensures Atoi(NatToDecimal(n)) == Err(NumError("Atoi", NatToDecimal(n), ErrRange))
  {
    var s := NatToDecimal(n);
    assert IsDigit(s[0]);
    assert Unsigned(s) == s;
  }
}

=== FILE: utils.dfy ===
/**
  The storage-error normaliser of internal/utils: duplicate-key write errors become a
  409 Conflict, the driver's "no documents" sentinel becomes a benign 200, everything else
  passes through.
 */
module Utils {
  import opened Errors

  /** The domain Conflict error: `fiber.NewError(409, "Model Already Exists")`. */
  const Conflict := FiberError(StatusConflict, "Model Already Exists")

  /** The domain NoOp marker: `fiber.NewError(200, "No Operation Executed")`. */
  const NoOperation := FiberError(StatusOK, "No Operation Executed")

  /** The marker a 16460 write error must carry to count as a duplicate key. */
  const DuplicateKeyMarker := " E11000 "

  /** `p` is a prefix of `s`. */
  predicate IsPrefix(p: string, s: string)
  {
    |p| <= |s| && s[..|p|] == p
  }

  /** `strings.Contains(s, sub)`. */
  predicate Contains(s: string, sub: string)
  {
    IsPrefix(sub, s) || (s != [] && Contains(s[1..], sub))
  }

  /**
    The duplicate-key test on one write error. Go's `&&` binds tighter than `||`, so the
    message check guards code 16460 only; the parentheses make that grouping explicit.
   */
  predicate IsDuplicateKey(w: WriteError)
  {
    w.code == 11000 || w.code == 11001 || w.code == 12582
    || (w.code == 16460 && Contains(w.message, DuplicateKeyMarker))
  }

  /** The in-order scan over the write errors, stopping at the first duplicate key. */
  function HasDuplicateKey(ws: seq<WriteError>): (found: bool)
    ensures found <==> exists i :: 0 <= i < |ws| && IsDuplicateKey(ws[i])
  {
    if ws == [] then false
    else IsDuplicateKey(ws[0]) || HasDuplicateKey(ws[1..])
  }

  /** The condition under which the normaliser reports a Conflict. */
  predicate IsDuplicateKeyError(err: Error)
  {
    err.WriteException? && exists i :: 0 <= i < |err.writeErrors| && IsDuplicateKey(err.writeErrors[i])
  }

  /**
    `ErrorWrapper`. The Conflict check comes first; the no-documents check compares the whole
    text for equality; any other error is returned unchanged. Go's nil error cannot be passed:
    the source calls `err.Error()` unconditionally.
   */
  function ErrorWrapper(err: Error): (r: Error)
    ensures IsDuplicateKeyError(err) ==> r == Conflict
    ensures !IsDuplicateKeyError(err) && ErrorText(err) == NoDocumentsText ==> r == NoOperation
    ensures !IsDuplicateKeyError(err) && ErrorText(err) != NoDocumentsText ==> r == err
  {
    if err.WriteException? && HasDuplicateKey(err.writeErrors) then Conflict
    else if ErrorText(err) == NoDocumentsText then NoOperation
    else err
  }

  /** Normalising twice gives what normalising once gives. */
  lemma ErrorWrapperIdempotent(err: Error)
    ensures ErrorWrapper(ErrorWrapper(err)) == ErrorWrapper(err)
  {
    assert ErrorText(Conflict) != NoDocumentsText by {
      assert ErrorText(Conflict)[0] != NoDocumentsText[0];
    }
    assert ErrorText(NoOperation) != NoDocumentsText by {
      assert ErrorText(NoOperation)[0] != NoDocumentsText[0];
    }
  }

  /**
    One write error with code 11000, 11001 or 12582 anywhere in the list is enough for a
    Conflict, whatever its message and whatever the exception's text: the marker guard does
    not apply to these codes.
   */
  lemma UnguardedCodesConflict(ws: seq<WriteError>, i: nat, text: string)
    requires i < |ws| && ws[i].code in {11000, 11001, 12582}
    ensures ErrorWrapper(WriteException(ws, text)) == Conflict
  {
    assert IsDuplicateKey(ws[i]);
  }

  /** A lone 16460 write error is a Conflict exactly when its message contains " E11000 ". */
  lemma GuardedCodeNeedsMarker(message: string, text: string)
    ensures ErrorWrapper(WriteException([WriteError(16460, message)], text)) == Conflict
            <==> Contains(message, DuplicateKeyMarker)
  {
    var err := WriteException([WriteError(16460, message)], text);
    if !Contains(message, DuplicateKeyMarker) {
      assert !IsDuplicateKeyError(err);
      assert ErrorWrapper(err) == err || ErrorWrapper(err) == NoOperation;
    }
  }

  /** The sentinel must match the whole text: one character more and the error passes through. */
  lemma NoDocumentsNeedsExactText(suffix: string)
    requires suffix != []
    ensures ErrorWrapper(DriverError(NoDocumentsText + suffix)) == DriverError(NoDocumentsText + suffix)
  {
    assert |NoDocumentsText + suffix| != |NoDocumentsText|;
  }

  /** The driver's own no-documents error becomes the "No Operation Executed" marker. */
  lemma NoDocumentsIsNoOperation()
    ensures ErrorWrapper(ErrNoDocuments) == NoOperation
  {
  }
}

=== FILE: wrappers.dfy ===
/** Option and Result datatypes standing in for Go's nil values and `(value, error)` pairs. */
module Wrappers {

  /** A value that may be absent: Go's nil pointer, nil error or nil slice. */
  datatype Option<+T> = None | Some(value: T)

  /** A value or the error that replaced it. */
  datatype Result<+T, +E> = Ok(value: T) | Err(error: E)
}
